=== FILE: README.md ===
# Odia Krishi Jagran news scraper: record assembly

This project models how the scraper's HTTP handlers turn the parsed homepage of
`https://odia.krishijagran.com` into the `news` array they return. There are
three handlers:

- `/api/news` in `api/index.js` and `/api/news` in `api/server.js`. They scrape
  eight sections in a fixed order: top story, left list, right list, animal
  husbandry, health and lifestyle, categories, trending, latest news.
- For every matched element they read a title, a link, an image and, for
  health items, a read-more link.
- An element is kept only when its title and link are truthy.
- The link is always `https://odia.krishijagran.com` followed by the href,
  with no check on the href.
- A missing or empty image is written as `null`. A read-more link is the
  origin plus its href, or `null`.
- Category groups without a truthy name are skipped whole. Records from a
  named group carry the name as `category`.
- The reply is `{status: 'success', count, data}`. The body fetched from
  upstream must be a non-empty string, otherwise the reply is a 500 error.
- `/news` in `server.js` is the older handler. It scrapes six sections and
  filters nothing. It always emits a top-story record.
- Outside the categories section, its title, image and link fields are
  stored as read, so `undefined` is possible, and a missing href gives a
  link that ends in `undefined`. Health titles are the exception among
  titles: they come from the anchor text, which is always a string. The health read-more link is the
  exception: it is the origin plus its href, or `null`.
- In the categories section, the group name and title are stored as read.
  The link is the origin plus the href, or `null` when the href is missing
  or empty. The image is the `src`, or `null` when it is missing or empty.

The HTML library's query results are the input. `Document.Page` holds, per
section, what each `.attr()` returned (`None` for `undefined`) and what
`.text()` returned. The model layers are:

- `Js`: the JavaScript operators the handlers use (truthiness, `|| null`,
  `? … : null`, string conversion of `undefined`).
- `Records`: records, replies, and concatenation of per-section blocks.
- `ApiExtract`: the shared extraction of the two API handlers.
- `ApiHandlers`: the handlers themselves, plus the push-in-a-loop form of the
  handler body, proved equal to the extraction.
- `Legacy`: the older handler.
- `Variants`: how the API and older handlers relate.
- `Scenarios`: concrete pages.

Some facts about the code that a reader might expect otherwise:

- The code prefixes absolute hrefs as well.
- The image is the raw `src` attribute. It is never prefixed, and there is
  no lazy-load fallback.
- Titles are not trimmed, so a whitespace-only title is kept.
- There are no per-section counters.

## Model

| member | source | states |
|---|---|---|
| Js.OrNull | api/index.js:110 | `image \|\| null` is a string exactly when the value is a non-empty string, and `null` otherwise, never undefined |
| Js.PrefixOrNull | api/index.js:159 | the read-more link is origin plus the href exactly when the href is truthy, otherwise `null` |
| Js.Truthy | api/index.js:105 | an attribute passes `title && link` exactly when JavaScript's ToBoolean holds of it stored as read, that is when it is a non-empty string |
| Js.Raw | server.js:32-37 | a field stored as read is never `null`; it is a string exactly when the attribute was present, and then that string |
| ApiExtract.ItemRecord | api/index.js:106-111 | a kept element's record carries the title as read, a link that is the origin followed by the href, an image that is the `src` when truthy and `null` otherwise, and no read-more link |
| ApiExtract.HealthRecord | api/index.js:155-161 | a kept health element's record carries the anchor text, the origin followed by the href, the image or `null`, and a read-more link that is the origin followed by its href exactly when that href is truthy, `null` otherwise |
| ApiExtract.TopRecords | api/index.js:82-97 | the top story yields at most one record, exactly one iff the selection is non-empty and its title and link are truthy, and that record is the element's title, origin plus href, and image or `null` |
| ApiExtract.ListRecords | api/index.js:100-113 | a list loop yields no more records than matched items, all tagged with the loop's section |
| ApiExtract.ListRecordsMembers | api/index.js:100-113 | a record is emitted iff some item has truthy title and link, and the record is that title, origin plus href, and the image or `null` |
| ApiExtract.ListRecordsLossless | api/index.js:105 | a loop keeps every item iff every item has a truthy title and link |
| ApiExtract.ListRecordsAppend | api/index.js:100-113 | records follow item order: the loop over two runs of items is the loop over the first followed by the loop over the second |
| ApiExtract.HealthRecords | api/index.js:148-163 | health records number at most the matched items and are all tagged health_lifestyle |
| ApiExtract.HealthRecordsMembers | api/index.js:148-163 | a health record is emitted iff an item has non-empty anchor text and a truthy href, with readMoreLink origin plus href or `null` |
| ApiExtract.HealthRecordsAppend | api/index.js:148-163 | health records follow item order |
| ApiExtract.GroupRecords | api/index.js:169 | a group whose name is missing or empty yields nothing; every record of a group carries its name |
| ApiExtract.CategoryRecords | api/index.js:166-186 | category records number at most the items across all groups and are all tagged categories |
| ApiExtract.CategoryRecordsMembers | api/index.js:166-186 | a category record is emitted iff a named group has an item with truthy title and link, and it carries that group's name |
| ApiExtract.CategoryRecordsAppend | api/index.js:166-186 | groups are emitted in document order |
| ApiExtract.UnnamedGroupIgnored | api/index.js:169 | removing an unnamed group from the page does not change the category records |
| ApiExtract.ItemRecordWellFormed | api/index.js:105-111 | a kept item's record has a non-empty title, a link of origin plus a non-empty path, and a non-empty image or `null` |
| ApiExtract.HealthRecordWellFormed | api/index.js:154-161 | a kept health item's record also has a read-more link of origin plus a non-empty path, or `null` |
| ApiExtract.BlockWellFormed | api/index.js:82-219 | every record of every section satisfies the record invariant |
| ApiExtract.ExtractWellFormed | api/index.js:82-219 | every emitted record has a non-empty title and an origin-prefixed link; category exactly on category records, readMoreLink exactly on health records |
| ApiExtract.ExtractOrdered | api/index.js:82-219 | records are grouped by section in the order top_story, left_list, right_list, animal_husbandry, health_lifestyle, categories, trending, latest_news |
| ApiExtract.ExtractSectionIsolated | api/index.js:82-219 | the records of a section are exactly that section's loop output, independent of every other section |
| ApiExtract.Extract | api/index.js:80-219 | the array holds at most one record per matched element plus one for the top story |
| ApiHandlers.ApiIndexNews | api/index.js:75-233 | success iff the body is a non-empty string; then count equals the array length and every record is well formed; otherwise a 500 error with the fixed messages |
| ApiHandlers.ApiServerNews | api/server.js:35-208 | the same guard and reply shape; the error also carries a timestamp |
| ApiHandlers.ApiVariantsAgree | api/server.js:35-192 | the two API handlers give the same reply, apart from the error timestamp |
| ApiHandlers.PushTopStory | api/server.js:44-58 | the top-story block appends the top-story record, and nothing when the selection is empty |
| ApiHandlers.PushItems | api/server.js:61-74 | the push loop appends exactly the filtered records, in order |
| ApiHandlers.PushHealth | api/server.js:109-124 | the health push loop appends exactly the filtered health records |
| ApiHandlers.PushCategories | api/server.js:127-147 | the nested loop enters only named groups and appends exactly the category records |
| ApiHandlers.ScrapeNews | api/server.js:43-179 | the eight push blocks build exactly the extraction, section-ordered and well formed |
| Legacy.Prefixed | server.js:18 | every non-category link starts with the origin, followed by the href or the text "undefined" |
| Legacy.LegacyItemRecord | server.js:32-37 | a plain-section record has the title and image as read (a string exactly when the attribute is present, and then that string; `undefined` otherwise, never `null`), a link that is the origin followed by the href or "undefined", and equals the API record for an element with truthy title, link and image |
| Legacy.LegacyHealthRecord | server.js:72-78 | a health record has the anchor text, the image as read, a link that is the origin followed by the href or "undefined", a read-more link that is the origin followed by its href when that href is truthy and `null` otherwise, and equals the API record when the text is non-empty and the href and image are truthy |
| Legacy.LegacyCategoryRecord | server.js:90-96 | a category record carries the group name and title as read (never `null`), a link that is the origin followed by the href when the href is truthy and `null` otherwise, an image that is the `src` when truthy and `null` otherwise, and equals the API record for a named group's kept element |
| Legacy.LegacyData | server.js:13-98 | the array has the top-story record first and its length is one plus the matched elements of the other five sections; which records each section contributes is stated by `Legacy.LegacySectionIsolated` |
| Legacy.LegacySectionIsolated | server.js:15-98 | filtering the array by any of the six sections gives exactly that section's loop output: the top-story record, the left, right and animal husbandry lists, the health list, or the category records, each independent of the other sections |
| Legacy.LegacyList | server.js:28-38 | one record per matched item, in order, with no filtering |
| Legacy.LegacyHealthList | server.js:67-79 | one health record per matched item, in order |
| Legacy.LegacyGroup | server.js:85-97 | one category record per item of a group, whatever the group's name |
| Legacy.LegacyCategories | server.js:82-98 | the category records number exactly the items across all groups |
| Legacy.LegacyCategoriesMembers | server.js:82-98 | a category record is emitted for every item of every group, named or not, carrying the name as read |
| Legacy.LegacyNews | server.js:11-104 | always a success; count is 1 plus the sizes of the four list sections plus the category items, and equals the array length |
| Legacy.LegacyOrdered | server.js:15-98 | records are grouped by section in the six-section order |
| Legacy.LegacyTopStoryAlways | server.js:16-25 | exactly one top-story record, first, even with no top story; no trending or latest records |
| Legacy.LegacyLinks | server.js:18-94 | non-category links always start with the origin; a category link is `null` or origin plus a non-empty path |
| Variants.LegacyIsPrefixOnCompletePages | server.js:15-98 | on a page where every value is present and non-empty, the API array is the older array followed by the trending and latest records |
| Variants.MissingTopStory | server.js:16-25 | with no top story the API emits no top-story record while the older handler emits one with undefined title and a link ending in "undefined" |
| Scenarios.WhitespaceTitleKept | api/index.js:105-111 | a title of one space is kept as is |
| Scenarios.AbsoluteHrefPrefixedAgain | api/index.js:195-201 | an absolute href is still prefixed with the origin; an empty src becomes `null` |
| Scenarios.IncompleteItemsDropped | api/index.js:211 | a missing title or an empty href drops the item |
| Scenarios.HealthTitlesFromText | api/index.js:149-161 | empty anchor text drops a health item; a present read-more href is prefixed |
| Scenarios.WeatherAndMarket | api/index.js:166-186 | two Weather records and one Market record from groups of two and two items, one without a link, next to an unnamed group |
| Scenarios.LegacyMissingHref | server.js:30 | the older handler turns a missing href into "https://odia.krishijagran.comundefined" |
| Scenarios.LegacyUnnamedGroupKept | server.js:82-97 | the older handler keeps items of an unnamed group, with a `null` link and image |

## Left out

- Fetching the page with axios: the request headers, the 30-second timeout,
  network failures, and the upstream status the `api/server.js` error reply
  propagates (`error.response?.status`). The body arrives as a
  `Document.Body` value.
- Parsing with cheerio and CSS selector matching. They belong to an HTML
  library outside this code. Their results are the `Document.Page` input.
  `ApiHandlers.ApiIndexNews` and `ApiHandlers.ApiServerNews` take the loader
  as a function parameter.
- The inner try/catch of `api/server.js` (lines 183-186). It returns partial
  results only when the HTML library throws, which the model cannot express.
- The error reply of `server.js`, and what `cheerio.load` does with a
  non-string body there. Both depend on the fetch and on the library.
- Logging, and the clock. The `api/server.js` error timestamp is the `now`
  parameter.
- Express setup, CORS, helmet, rate limiting, the health and 404 routes, and
  the error middleware. These are HTTP plumbing around the handlers.
- JSON serialisation: a field that is `Undefined` in the model is omitted
  from the JSON, and key order is not modelled.

=== FILE: api_extract.dfy ===
/**
 Record assembly of the `/api/news` handlers (api/index.js and
 api/server.js share it): eight sections scraped in a fixed order, an
 element kept only when its title and link are truthy, every link prefixed
 with the site origin, a missing image or read-more link written as `null`.
 */
module ApiExtract {
  import opened Js
  import opened Document
  import opened Records

  /** The sections built by the plain title/link/image recipe. */
  predicate PlainSection(sec: Section)
  {
    sec != HealthLifestyle && sec != Categories
  }

  /** The `category` a plain-recipe record carries: none outside the
      categories section, the group's non-empty name inside it. */
  predicate ValidTag(sec: Section, category: JsValue)
  {
    sec != HealthLifestyle &&
    if sec == Categories then category.Str? && category.s != "" else category == Undefined
  }

  /** `if (title && link)`: the element yields a record. */
  predicate Kept(it: Item)
  {
    Truthy(it.title) && Truthy(it.href)
  }

  predicate HealthKept(h: HealthItem)
  {
    h.text != "" && Truthy(h.href)
  }

  /** The record pushed for a kept element: the title as read, the origin
      followed by the href, and the image or `null`. */
  function ItemRecord(sec: Section, category: JsValue, it: Item): (r: NewsRecord)
    requires Kept(it)
    ensures r.section == sec && r.category == category && r.readMoreLink == Undefined
    ensures r.title.Str? && it.title == Some(r.title.s) && r.title.s != ""
    ensures r.link.Str? && Origin < r.link.s && r.link.s[|Origin|..] == it.href.value
    ensures r.image != Undefined && (r.image.Str? <==> Truthy(it.src))
    ensures r.image.Str? ==> it.src == Some(r.image.s)
  {
    NewsRecord(sec, category, Str(it.title.value), Str(Origin + it.href.value), OrNull(it.src), Undefined)
  }

  /** The record pushed for a kept health element: the anchor text, the
      origin followed by the href, the image or `null`, and the read-more
      link as the origin followed by its href, or `null`. */
  function HealthRecord(h: HealthItem): (r: NewsRecord)
    requires HealthKept(h)
    ensures r.section == HealthLifestyle && r.category == Undefined
    ensures r.title == Str(h.text)
    ensures r.link.Str? && Origin < r.link.s && r.link.s[|Origin|..] == h.href.value
    ensures r.image != Undefined && (r.image.Str? <==> Truthy(h.src))
    ensures r.image.Str? ==> h.src == Some(r.image.s)
    ensures r.readMoreLink != Undefined && (r.readMoreLink.Str? <==> Truthy(h.readMore))
    ensures r.readMoreLink.Str? ==> Origin < r.readMoreLink.s && r.readMoreLink.s[|Origin|..] == h.readMore.value
  {
    NewsRecord(HealthLifestyle, Undefined, Str(h.text), Str(Origin + h.href.value),
               OrNull(h.src), PrefixOrNull(Origin, h.readMore))
  }

  /** What every record of these handlers looks like: a non-empty title; a
      link that is the origin followed by a non-empty path; an image that is
      `null` or a non-empty string; a read-more link (origin plus a
      non-empty path, or `null`) exactly on health records; a non-empty
      category exactly on category records. */
  ghost predicate WellFormed(r: NewsRecord)
  {
    && r.title.Str? && r.title.s != ""
    && r.link.Str? && Origin < r.link.s
    && r.image != Undefined && (r.image.Str? ==> r.image.s != "")
    && (r.section == HealthLifestyle <==> r.readMoreLink != Undefined)
    && (r.readMoreLink.Str? ==> Origin < r.readMoreLink.s)
    && (r.section == Categories <==> r.category != Undefined)
    && (r.category != Undefined ==> r.category.Str? && r.category.s != "")
  }

  /** The top story: one record at most, and none when the selection is empty. */
  function TopRecords(top: Option<Item>): (rs: seq<NewsRecord>)
    ensures |rs| <= 1
    ensures |rs| == 1 <==> top.Some? && Kept(top.value)
    ensures |rs| == 1 ==> top.Some? && Kept(top.value) && rs[0] == ItemRecord(TopStory, Undefined, top.value)
    ensures forall r :: r in rs ==> r.section == TopStory
  {
    match top
    case None => []
    case Some(it) => if Kept(it) then [ItemRecord(TopStory, Undefined, it)] else []
  }

  /** One `.each` loop of the plain recipe, in document order. */
  function ListRecords(sec: Section, category: JsValue, items: seq<Item>): (rs: seq<NewsRecord>)
    requires ValidTag(sec, category)
    ensures |rs| <= |items|
    ensures forall r :: r in rs ==> r.section == sec && r.category == category
  {
    if items == [] then []
    else
      (if Kept(items[0]) then [ItemRecord(sec, category, items[0])] else [])
      + ListRecords(sec, category, items[1..])
  }

  /** The health and lifestyle loop. */
  function HealthRecords(hs: seq<HealthItem>): (rs: seq<NewsRecord>)
    ensures |rs| <= |hs|
    ensures forall r :: r in rs ==> r.section == HealthLifestyle
  {
    if hs == [] then []
    else
      (if HealthKept(hs[0]) then [HealthRecord(hs[0])] else [])
      + HealthRecords(hs[1..])
  }

  /** One category group: nothing at all unless its name is truthy. */
  function GroupRecords(g: CategoryGroup): (rs: seq<NewsRecord>)
    ensures !Truthy(g.name) ==> rs == []
    ensures forall r :: r in rs ==> r.category == Str(g.name.value)
  {
    if Truthy(g.name) then ListRecords(Categories, Str(g.name.value), g.items) else []
  }

  /** The nested categories loop: groups in document order, items in
      document order within a group. */
  function CategoryRecords(gs: seq<CategoryGroup>): (rs: seq<NewsRecord>)
    ensures |rs| <= GroupItemCount(gs)
    ensures forall r :: r in rs ==> r.section == Categories
  {
    if gs == [] then []
    else GroupRecords(gs[0]) + CategoryRecords(gs[1..])
  }

  /** The records of each section, in scraping order. */
  function Blocks(p: Page): (bs: seq<seq<NewsRecord>>)
    ensures |bs| == 8
  {
    [ TopRecords(p.topStory),
      ListRecords(LeftList, Undefined, p.left),
      ListRecords(RightList, Undefined, p.right),
      ListRecords(AnimalHusbandry, Undefined, p.husbandry),
      HealthRecords(p.health),
      CategoryRecords(p.categories),
      ListRecords(Trending, Undefined, p.trending),
      ListRecords(LatestNews, Undefined, p.latest) ]
  }

  /** The `news` array the handler builds: at most one record per matched
      element (one for the whole top-story selection), however the elements
      are filtered. */
  function Extract(p: Page): (rs: seq<NewsRecord>)
    ensures |rs| <= 1 + |p.left| + |p.right| + |p.husbandry| + |p.health|
      + GroupItemCount(p.categories) + |p.trending| + |p.latest|
  {
    Concat8(Blocks(p));
    Concat(Blocks(p))
  }

  // ---------------------------------------------------------------------
  // Properties of the per-section loops

  lemma {:induction false} ListRecordsAppend(sec: Section, category: JsValue, a: seq<Item>, b: seq<Item>)
    requires ValidTag(sec, category)
    ensures ListRecords(sec, category, a + b) == ListRecords(sec, category, a) + ListRecords(sec, category, b)
  {
    if a != [] {
      var head := if Kept(a[0]) then [ItemRecord(sec, category, a[0])] else [];
      assert (a + b)[0] == a[0] && (a + b)[1..] == a[1..] + b;
      ListRecordsAppend(sec, category, a[1..], b);
      AppendAssoc(head, ListRecords(sec, category, a[1..]), ListRecords(sec, category, b));
    } else {
      assert a + b == b;
    }
  }

  /** A record comes out of a loop exactly when some element was kept and
      the record is that element's title, origin-prefixed link and image. */
  lemma {:induction false} ListRecordsMembers(sec: Section, category: JsValue, items: seq<Item>, r: NewsRecord)
    requires ValidTag(sec, category)
    ensures r in ListRecords(sec, category, items) <==>
      exists i :: 0 <= i < |items| && Kept(items[i]) && r == ItemRecord(sec, category, items[i])
  {
    if items != [] {
      ListRecordsMembers(sec, category, items[1..], r);
      if r in ListRecords(sec, category, items[1..]) {
        var i :| 0 <= i < |items[1..]| && Kept(items[1..][i]) && r == ItemRecord(sec, category, items[1..][i]);
        assert items[i + 1] == items[1..][i];
      }
      if exists i :: 0 <= i < |items| && Kept(items[i]) && r == ItemRecord(sec, category, items[i]) {
        var i :| 0 <= i < |items| && Kept(items[i]) && r == ItemRecord(sec, category, items[i]);
        if i > 0 {
          assert items[1..][i - 1] == items[i];
        }
      }
    }
  }

  /** Nothing is lost exactly when every element has a truthy title and link. */
  lemma {:induction false} ListRecordsLossless(sec: Section, category: JsValue, items: seq<Item>)
    requires ValidTag(sec, category)
    ensures |ListRecords(sec, category, items)| == |items| <==> forall i :: 0 <= i < |items| ==> Kept(items[i])
  {
    if items != [] {
      ListRecordsLossless(sec, category, items[1..]);
      if forall i :: 0 <= i < |items[1..]| ==> Kept(items[1..][i]) {
        if Kept(items[0]) {
          forall i | 0 <= i < |items| ensures Kept(items[i])
          {
            if i > 0 {
              assert items[i] == items[1..][i - 1];
            }
          }
        }
      } else {
        var i :| 0 <= i < |items[1..]| && !Kept(items[1..][i]);
        assert !Kept(items[i + 1]);
      }
    }
  }

  lemma {:induction false} HealthRecordsAppend(a: seq<HealthItem>, b: seq<HealthItem>)
    ensures HealthRecords(a + b) == HealthRecords(a) + HealthRecords(b)
  {
    if a != [] {
      var head := if HealthKept(a[0]) then [HealthRecord(a[0])] else [];
      assert (a + b)[0] == a[0] && (a + b)[1..] == a[1..] + b;
      HealthRecordsAppend(a[1..], b);
      AppendAssoc(head, HealthRecords(a[1..]), HealthRecords(b));
    } else {
      assert a + b == b;
    }
  }

  /** A health record comes out exactly for an element with non-empty anchor
      text and a truthy link. */
  lemma {:induction false} HealthRecordsMembers(hs: seq<HealthItem>, r: NewsRecord)
    ensures r in HealthRecords(hs) <==>
      exists i :: 0 <= i < |hs| && HealthKept(hs[i]) && r == HealthRecord(hs[i])
  {
    if hs != [] {
      HealthRecordsMembers(hs[1..], r);
      if r in HealthRecords(hs[1..]) {
        var i :| 0 <= i < |hs[1..]| && HealthKept(hs[1..][i]) && r == HealthRecord(hs[1..][i]);
        assert hs[i + 1] == hs[1..][i];
      }
      if exists i :: 0 <= i < |hs| && HealthKept(hs[i]) && r == HealthRecord(hs[i]) {
        var i :| 0 <= i < |hs| && HealthKept(hs[i]) && r == HealthRecord(hs[i]);
        if i > 0 {
          assert hs[1..][i - 1] == hs[i];
        }
      }
    }
  }

  lemma {:induction false} CategoryRecordsAppend(a: seq<CategoryGroup>, b: seq<CategoryGroup>)
    ensures CategoryRecords(a + b) == CategoryRecords(a) + CategoryRecords(b)
  {
    if a != [] {
      assert (a + b)[0] == a[0] && (a + b)[1..] == a[1..] + b;
      CategoryRecordsAppend(a[1..], b);
      AppendAssoc(GroupRecords(a[0]), CategoryRecords(a[1..]), CategoryRecords(b));
    } else {
      assert a + b == b;
    }
  }

  /** Adding one more group at the end. */
  lemma CategoryRecordsSnoc(gs: seq<CategoryGroup>, i: nat)
    requires i < |gs|
    ensures CategoryRecords(gs[..i + 1]) == CategoryRecords(gs[..i]) + GroupRecords(gs[i])
  {
    assert gs[..i + 1] == gs[..i] + [gs[i]];
    CategoryRecordsAppend(gs[..i], [gs[i]]);
    assert [gs[i]][1..] == [];
  }

  /** A group without a truthy name can be removed without changing the
      categories output. */
  lemma UnnamedGroupIgnored(a: seq<CategoryGroup>, g: CategoryGroup, b: seq<CategoryGroup>)
    requires !Truthy(g.name)
    ensures CategoryRecords(a + [g] + b) == CategoryRecords(a + b)
  {
    var single := CategoryRecords([g]);
    assert [g][1..] == [];
    assert single == GroupRecords(g) + CategoryRecords([]);
    assert single == [];
    CategoryRecordsAppend(a + [g], b);
    CategoryRecordsAppend(a, [g]);
    CategoryRecordsAppend(a, b);
  }

  /** Every category record comes from a kept item of a named group. */
  lemma {:induction false} CategoryRecordsSound(gs: seq<CategoryGroup>, r: NewsRecord)
    requires r in CategoryRecords(gs)
    ensures exists i, j ::
      0 <= i < |gs| && 0 <= j < |gs[i].items| && Truthy(gs[i].name)
      && Kept(gs[i].items[j]) && r == ItemRecord(Categories, Str(gs[i].name.value), gs[i].items[j])
  {
    var g := gs[0];
    if r in GroupRecords(g) {
      ListRecordsMembers(Categories, Str(g.name.value), g.items, r);
      var j :| 0 <= j < |g.items| && Kept(g.items[j]) && r == ItemRecord(Categories, Str(g.name.value), g.items[j]);
      assert 0 <= 0 < |gs| && 0 <= j < |gs[0].items|;
    } else {
      CategoryRecordsSound(gs[1..], r);
      var i, j :| 0 <= i < |gs[1..]| && 0 <= j < |gs[1..][i].items| && Truthy(gs[1..][i].name)
        && Kept(gs[1..][i].items[j]) && r == ItemRecord(Categories, Str(gs[1..][i].name.value), gs[1..][i].items[j]);
      assert gs[i + 1] == gs[1..][i];
    }
  }

  /** Every kept item of a named group yields its category record. */
  lemma {:induction false} CategoryRecordsComplete(gs: seq<CategoryGroup>, i: int, j: int)
    requires 0 <= i < |gs| && 0 <= j < |gs[i].items| && Truthy(gs[i].name) && Kept(gs[i].items[j])
    ensures ItemRecord(Categories, Str(gs[i].name.value), gs[i].items[j]) in CategoryRecords(gs)
  {
    var r := ItemRecord(Categories, Str(gs[i].name.value), gs[i].items[j]);
    if i == 0 {
      ListRecordsMembers(Categories, Str(gs[0].name.value), gs[0].items, r);
    } else {
      assert gs[1..][i - 1] == gs[i];
      CategoryRecordsComplete(gs[1..], i - 1, j);
    }
  }

  /** A category record comes out exactly for a kept item of a group whose
      name is truthy, and carries that name. */
  lemma CategoryRecordsMembers(gs: seq<CategoryGroup>, r: NewsRecord)
    ensures r in CategoryRecords(gs) <==>
      exists i, j :: 0 <= i < |gs| && 0 <= j < |gs[i].items| && Truthy(gs[i].name)
        && Kept(gs[i].items[j]) && r == ItemRecord(Categories, Str(gs[i].name.value), gs[i].items[j])
  {
    if r in CategoryRecords(gs) {
      CategoryRecordsSound(gs, r);
    }
    if exists i, j ::
        0 <= i < |gs| && 0 <= j < |gs[i].items| && Truthy(gs[i].name)
        && Kept(gs[i].items[j]) && r == ItemRecord(Categories, Str(gs[i].name.value), gs[i].items[j])
    {
      var i, j :| 0 <= i < |gs| && 0 <= j < |gs[i].items| && Truthy(gs[i].name)
        && Kept(gs[i].items[j]) && r == ItemRecord(Categories, Str(gs[i].name.value), gs[i].items[j]);
      CategoryRecordsComplete(gs, i, j);
    }
  }

  // ---------------------------------------------------------------------
  // Properties of the whole extraction

  lemma BlockSection(p: Page, k: int, r: NewsRecord)
    requires 0 <= k < 8 && r in Blocks(p)[k]
    ensures Rank(r.section) == k
  {
    if k == 0 {
      assert r in TopRecords(p.topStory);
    } else if k == 1 {
      assert r in ListRecords(LeftList, Undefined, p.left);
    } else if k == 2 {
      assert r in ListRecords(RightList, Undefined, p.right);
    } else if k == 3 {
      assert r in ListRecords(AnimalHusbandry, Undefined, p.husbandry);
    } else if k == 4 {
      assert r in HealthRecords(p.health);
    } else if k == 5 {
      assert r in CategoryRecords(p.categories);
    } else if k == 6 {
      assert r in ListRecords(Trending, Undefined, p.trending);
    } else {
      assert r in ListRecords(LatestNews, Undefined, p.latest);
    }
  }

  lemma BlocksOrdered(p: Page)
    ensures BlocksInOrder(Blocks(p), 0)
  {
    forall k, r: NewsRecord | 0 <= k < |Blocks(p)| && r in Blocks(p)[k]
      ensures Rank(r.section) == k
    {
      BlockSection(p, k, r);
    }
  }

  lemma ItemRecordWellFormed(sec: Section, category: JsValue, it: Item)
    requires ValidTag(sec, category) && Kept(it)
    ensures WellFormed(ItemRecord(sec, category, it))
  {
  }

  lemma HealthRecordWellFormed(h: HealthItem)
    requires HealthKept(h)
    ensures WellFormed(HealthRecord(h))
  {
  }

  /** Every record of one section's block satisfies the record invariant. */
  lemma BlockWellFormed(p: Page, k: nat, r: NewsRecord)
    requires k < 8 && r in Blocks(p)[k]
    ensures WellFormed(r)
  {
    var bs := Blocks(p);
    if k == 0 {
      ItemRecordWellFormed(TopStory, Undefined, p.topStory.value);
    } else if k == 4 {
      HealthRecordsMembers(p.health, r);
      var i :| 0 <= i < |p.health| && HealthKept(p.health[i]) && r == HealthRecord(p.health[i]);
      HealthRecordWellFormed(p.health[i]);
    } else if k == 5 {
      CategoryRecordsMembers(p.categories, r);
      var i, j :| 0 <= i < |p.categories| && 0 <= j < |p.categories[i].items| && Truthy(p.categories[i].name)
        && Kept(p.categories[i].items[j]) && r == ItemRecord(Categories, Str(p.categories[i].name.value), p.categories[i].items[j]);
      ItemRecordWellFormed(Categories, Str(p.categories[i].name.value), p.categories[i].items[j]);
    } else {
      var sec := [TopStory, LeftList, RightList, AnimalHusbandry, HealthLifestyle, Categories, Trending, LatestNews][k];
      var items := [[], p.left, p.right, p.husbandry, [], [], p.trending, p.latest][k];
      assert bs[k] == ListRecords(sec, Undefined, items);
      ListRecordsMembers(sec, Undefined, items, r);
      var i :| 0 <= i < |items| && Kept(items[i]) && r == ItemRecord(sec, Undefined, items[i]);
      ItemRecordWellFormed(sec, Undefined, items[i]);
    }
  }

  /** Every record the handler emits satisfies the record invariant. */
  lemma ExtractWellFormed(p: Page)
    ensures forall r :: r in Extract(p) ==> WellFormed(r)
  {
    forall r | r in Extract(p) ensures WellFormed(r)
    {
      ConcatMembers(Blocks(p), r);
      var k :| 0 <= k < 8 && r in Blocks(p)[k];
      BlockWellFormed(p, k, r);
    }
  }

  /** Records come out grouped by section, in the fixed scraping order. */
  lemma ExtractOrdered(p: Page)
    ensures SectionOrdered(Extract(p))
  {
    BlocksOrdered(p);
    ConcatOrdered(Blocks(p), 0);
  }

  /** The records of one section are exactly that section's loop output:
      removing, emptying or changing one section of the page affects no
      other section's records. */
  lemma ExtractSectionIsolated(p: Page, s: Section)
    ensures OfSection(Extract(p), s) == Blocks(p)[Rank(s)]
  {
    BlocksOrdered(p);
    OfSectionBlock(Blocks(p), s);
  }

  /** The extraction is the eight section loops run one after the other. */
  lemma ExtractUnfolded(p: Page)
    ensures Extract(p) ==
      TopRecords(p.topStory) + ListRecords(LeftList, Undefined, p.left)
      + ListRecords(RightList, Undefined, p.right) + ListRecords(AnimalHusbandry, Undefined, p.husbandry)
      + HealthRecords(p.health) + CategoryRecords(p.categories)
      + ListRecords(Trending, Undefined, p.trending) + ListRecords(LatestNews, Undefined, p.latest)
  {
    Concat8(Blocks(p));
  }

}

=== FILE: api_handlers.dfy ===
/**
 The `/api/news` handlers of api/index.js and api/server.js around the
 shared extraction: the guard on the fetched body, the push-in-a-loop
 construction of the `news` array, and the response shape.
 */
module ApiHandlers {
  import opened Js
  import opened Document
  import opened Records
  import opened ApiExtract

  const FailureMessage: string := "Failed to fetch news data"
  const InvalidDataMessage: string := "Invalid response data received"

  /** The body passes `!data || typeof data !== 'string'` only when it is a
      non-empty string. */
  predicate UsableBody(body: Body)
  {
    body.Text? && body.s != ""
  }

  /** The api/index.js handler, given the fetched body and the HTML loader. */
  function ApiIndexNews(body: Body, load: string -> Page): (r: Response)
    ensures r.Success? <==> UsableBody(body)
    ensures r.Success? ==> r.count == |r.data| && r.data == Extract(load(body.s))
    ensures r.Success? ==> forall x :: x in r.data ==> WellFormed(x)
    ensures r.Error? ==>
      r.httpStatus == 500 && r.message == FailureMessage && r.error == InvalidDataMessage && r.timestamp == None
  {
    if !UsableBody(body) then Error(500, FailureMessage, InvalidDataMessage, None)
    else
      var news := Extract(load(body.s));
      ExtractWellFormed(load(body.s));
      Success(|news|, news)
  }

  /** The api/server.js handler: the same reply, except that an error also
      carries the time it was produced (`now`, since the clock is not
      modelled). The guard's own error has no upstream response, so its
      status is the fallback 500. */
  function ApiServerNews(body: Body, load: string -> Page, now: string): (r: Response)
    ensures r.Success? <==> UsableBody(body)
    ensures r.Success? ==> r.count == |r.data| && r.data == Extract(load(body.s))
    ensures r.Success? ==> forall x :: x in r.data ==> WellFormed(x)
    ensures r.Error? ==>
      r.httpStatus == 500 && r.message == FailureMessage && r.error == InvalidDataMessage && r.timestamp == Some(now)
  {
    if !UsableBody(body) then Error(500, FailureMessage, InvalidDataMessage, Some(now))
    else
      var news := Extract(load(body.s));
      ExtractWellFormed(load(body.s));
      Success(|news|, news)
  }

  /** The two API handlers give the same reply, up to the error timestamp. */
  lemma ApiVariantsAgree(body: Body, load: string -> Page, now: string)
    ensures ApiServerNews(body, load, now) ==
      match ApiIndexNews(body, load)
      case Success(c, d) => Success(c, d)
      case Error(h, m, e, _) => Error(h, m, e, Some(now))
  {
  }

  // ---------------------------------------------------------------------
  // The handler body as written: `news.push` inside each `.each` callback.

  /** `if (topStory.length) { ... if (title && link) news.push(...) }` */
  method PushTopStory(news: seq<NewsRecord>, top: Option<Item>) returns (out: seq<NewsRecord>)
    ensures out == news + TopRecords(top)
    ensures top.None? ==> out == news
  {
    out := news;
    if top.Some? {
      var it := top.value;
      if Truthy(it.title) && Truthy(it.href) {
        out := out + [NewsRecord(TopStory, Undefined, Str(it.title.value), Str(Origin + it.href.value), OrNull(it.src), Undefined)];
      }
    }
  }

  /** One `.each` loop of the plain recipe. */
  method PushItems(news: seq<NewsRecord>, sec: Section, category: JsValue, items: seq<Item>)
    returns (out: seq<NewsRecord>)
    requires ValidTag(sec, category)
    ensures out == news + ListRecords(sec, category, items)
  {
    out := news;
    var i := 0;
    while i < |items|
      invariant 0 <= i <= |items|
      invariant out == news + ListRecords(sec, category, items[..i])
    {
      var it := items[i];
      ghost var before := out;
      if Truthy(it.title) && Truthy(it.href) {
        out := out + [NewsRecord(sec, category, Str(it.title.value), Str(Origin + it.href.value), OrNull(it.src), Undefined)];
      }
      assert [it][1..] == [];
      assert out == before + ListRecords(sec, category, [it]);
      ListRecordsAppend(sec, category, items[..i], [it]);
      AppendAssoc(news, ListRecords(sec, category, items[..i]), ListRecords(sec, category, [it]));
      assert items[..i + 1] == items[..i] + [it];
      i := i + 1;
    }
    assert items[..|items|] == items;
  }

  /** The health and lifestyle loop. */
  method PushHealth(news: seq<NewsRecord>, hs: seq<HealthItem>) returns (out: seq<NewsRecord>)
    ensures out == news + HealthRecords(hs)
  {
    out := news;
    var i := 0;
    while i < |hs|
      invariant 0 <= i <= |hs|
      invariant out == news + HealthRecords(hs[..i])
    {
      var h := hs[i];
      ghost var before := out;
      if h.text != "" && Truthy(h.href) {
        var readMore := if Truthy(h.readMore) then Str(Origin + h.readMore.value) else Null;
        out := out + [NewsRecord(HealthLifestyle, Undefined, Str(h.text), Str(Origin + h.href.value), OrNull(h.src), readMore)];
      }
      assert [h][1..] == [];
      assert out == before + HealthRecords([h]);
      HealthRecordsAppend(hs[..i], [h]);
      AppendAssoc(news, HealthRecords(hs[..i]), HealthRecords([h]));
      assert hs[..i + 1] == hs[..i] + [h];
      i := i + 1;
    }
    assert hs[..|hs|] == hs;
  }

  /** The nested categories loop: a group is entered only when its name is
      truthy. */
  method PushCategories(news: seq<NewsRecord>, gs: seq<CategoryGroup>) returns (out: seq<NewsRecord>)
    ensures out == news + CategoryRecords(gs)
  {
    out := news;
    var i := 0;
    while i < |gs|
      invariant 0 <= i <= |gs|
      invariant out == news + CategoryRecords(gs[..i])
    {
      var g := gs[i];
      ghost var before := out;
      if Truthy(g.name) {
        out := PushItems(out, Categories, Str(g.name.value), g.items);
      }
      assert out == before + GroupRecords(g);
      CategoryRecordsSnoc(gs, i);
      AppendAssoc(news, CategoryRecords(gs[..i]), GroupRecords(g));
      i := i + 1;
    }
    assert gs[..|gs|] == gs;
  }

  /** The whole handler body after `cheerio.load`: the eight sections pushed
      in order build exactly the extraction. */
  method ScrapeNews(p: Page) returns (news: seq<NewsRecord>)
    ensures news == Extract(p)
    ensures SectionOrdered(news)
    ensures forall r :: r in news ==> WellFormed(r)
  {
    ghost var bs := Blocks(p);
    news := PushTopStory([], p.topStory);
    assert news == bs[0];
    news := PushItems(news, LeftList, Undefined, p.left);
    assert news == bs[0] + bs[1];
    news := PushItems(news, RightList, Undefined, p.right);
    assert news == bs[0] + bs[1] + bs[2];
    news := PushItems(news, AnimalHusbandry, Undefined, p.husbandry);
    assert news == bs[0] + bs[1] + bs[2] + bs[3];
    news := PushHealth(news, p.health);
    assert news == bs[0] + bs[1] + bs[2] + bs[3] + bs[4];
    news := PushCategories(news, p.categories);
    assert news == bs[0] + bs[1] + bs[2] + bs[3] + bs[4] + bs[5];
    news := PushItems(news, Trending, Undefined, p.trending);
    assert news == bs[0] + bs[1] + bs[2] + bs[3] + bs[4] + bs[5] + bs[6];
    news := PushItems(news, LatestNews, Undefined, p.latest);
    Concat8(bs);
    ExtractOrdered(p);
    ExtractWellFormed(p);
  }
}

=== FILE: document.dfy ===
/**
 The parsed homepage, reduced to what the handlers read from it. Each value
 is the result of one cheerio query on one matched element; selector
 matching itself belongs to the HTML library and is not part of the model.
 */
module Document {
  import opened Js

  /** One matched element of a plain list section: the `title` and `href`
      attributes of its anchor and the `src` attribute of its image. */
  datatype Item = Item(title: Option<string>, href: Option<string>, src: Option<string>)

  /** One matched `.h-title` element of the health and lifestyle section.
      Its title is the anchor's text, and `.text()` yields `""` rather than
      `undefined` when nothing matches. */
  datatype HealthItem = HealthItem(text: string, href: Option<string>, readMore: Option<string>, src: Option<string>)

  /** One `.cat-flex` container: the `title` of its `.cat-h a` anchor and the
      `li` items of its list. */
  datatype CategoryGroup = CategoryGroup(name: Option<string>, items: seq<Item>)

  /** The homepage, section by section, items in document order.
      `topStory` is `None` when the top-story selection is empty; otherwise
      its fields are read from the whole selection. */
  datatype Page = Page(
    topStory: Option<Item>,
    left: seq<Item>,
    right: seq<Item>,
    husbandry: seq<Item>,
    health: seq<HealthItem>,
    categories: seq<CategoryGroup>,
    trending: seq<Item>,
    latest: seq<Item>)

  /** The body of the upstream response: a string, or anything else
      (`undefined`, a parsed object, a buffer). */
  datatype Body = Text(s: string) | NonString

  /** The number of `li` items across all category groups. */
  function GroupItemCount(gs: seq<CategoryGroup>): nat
  {
    if gs == [] then 0 else |gs[0].items| + GroupItemCount(gs[1..])
  }
}

=== FILE: js.dfy ===
/**
 The few JavaScript value semantics the news handlers rely on: the result of
 a cheerio `.attr()` call (a string or `undefined`), truthiness of such a
 result, and the three ways the handlers turn it into a JSON field.
 */
module Js {

  /** The result of `.attr(name)`: `None` is `undefined`. */
  datatype Option<+T> = None | Some(value: T)

  /** A record field as the handlers set it. `Undefined` fields are dropped
      when the record is serialised to JSON; `Null` is written as `null`. */
  datatype JsValue = Undefined | Null | Str(s: string)

  /** JavaScript's ToBoolean on a field value: `undefined`, `null` and the
      empty string are falsy, every other string is truthy. */
  predicate ToBoolean(v: JsValue)
  {
    v.Str? && v.s != ""
  }

  /** Truthiness of an attribute result, as `if (title && link)` tests it:
      `undefined` and `""` are falsy, every other string (whitespace-only
      ones included) is truthy. */
  function Truthy(v: Option<string>): (b: bool)
    ensures b <==> ToBoolean(Raw(v))
  {
    v.Some? && v.value != ""
  }

  /** `v || null` */
  function OrNull(v: Option<string>): (r: JsValue)
    ensures r != Undefined
    ensures r.Str? <==> Truthy(v)
    ensures r.Str? ==> v == Some(r.s) && r.s != ""
  {
    if Truthy(v) then Str(v.value) else Null
  }

  /** `v ? prefix + v : null` */
  function PrefixOrNull(prefix: string, v: Option<string>): (r: JsValue)
    ensures r != Undefined
    ensures r.Str? <==> Truthy(v)
    ensures r.Str? ==> prefix < r.s && r.s[|prefix|..] == v.value
  {
    if Truthy(v) then Str(prefix + v.value) else Null
  }

  /** `v` stored as is: `undefined` stays `undefined`, `""` stays `""`. */
  function Raw(v: Option<string>): (r: JsValue)
    ensures r != Null
    ensures r.Str? <==> v.Some?
    ensures r.Str? ==> v == Some(r.s)
  {
    match v
    case None => Undefined
    case Some(s) => Str(s)
  }

  /** `String(v)`, the conversion that `prefix + v` applies to its right
      operand: `undefined` becomes the nine characters "undefined". */
  function StringOf(v: Option<string>): string
  {
    match v
    case None => "undefined"
    case Some(x) => x
  }
}

=== FILE: legacy.dfy ===
/**
 The older `/news` handler of server.js: six sections, no filtering. Every
 matched element yields a record, the top story is emitted even when
 nothing matched, and fields are stored as read (`undefined` included).
 */
module Legacy {
  import opened Js
  import opened Document
  import opened Records
  import opened ApiExtract

  /** `'https://odia.krishijagran.com' + href`, with no presence check: a
      missing href is converted to the string "undefined". */
  function Prefixed(href: Option<string>): (link: string)
    ensures Origin <= link
    ensures link[|Origin|..] == StringOf(href)
  {
    Origin + StringOf(href)
  }

  /** The top-story fields read off a possibly empty selection: on an empty
      selection every `.attr()` yields `undefined`. */
  function TopFields(top: Option<Item>): Item
  {
    match top
    case None => Item(None, None, None)
    case Some(x) => x
  }

  /** A record of the plain sections, fields stored as read: the link is
      the origin followed by the href or "undefined", and on an element the
      API handlers would keep with a non-empty image the record is theirs. */
  function LegacyItemRecord(sec: Section, it: Item): (r: NewsRecord)
    ensures r.section == sec && r.category == Undefined && r.readMoreLink == Undefined
    ensures r.title != Null && (r.title.Str? <==> it.title.Some?) && (r.title.Str? ==> it.title == Some(r.title.s))
    ensures r.image != Null && (r.image.Str? <==> it.src.Some?) && (r.image.Str? ==> it.src == Some(r.image.s))
    ensures r.link.Str? && Origin <= r.link.s && r.link.s[|Origin|..] == StringOf(it.href)
    ensures ValidTag(sec, Undefined) && Kept(it) && Truthy(it.src) ==> r == ItemRecord(sec, Undefined, it)
  {
    NewsRecord(sec, Undefined, Raw(it.title), Str(Prefixed(it.href)), Raw(it.src), Undefined)
  }

  /** A health record: text as read, a link with no presence check, and
      the read-more link checked as in the API handlers. */
  function LegacyHealthRecord(h: HealthItem): (r: NewsRecord)
    ensures r.section == HealthLifestyle && r.category == Undefined && r.title == Str(h.text)
    ensures r.image != Null && (r.image.Str? <==> h.src.Some?) && (r.image.Str? ==> h.src == Some(r.image.s))
    ensures r.link.Str? && Origin <= r.link.s && r.link.s[|Origin|..] == StringOf(h.href)
    ensures r.readMoreLink != Undefined && (r.readMoreLink.Str? <==> Truthy(h.readMore))
    ensures r.readMoreLink.Str? ==> Origin < r.readMoreLink.s && r.readMoreLink.s[|Origin|..] == h.readMore.value
    ensures HealthKept(h) && Truthy(h.src) ==> r == HealthRecord(h)
  {
    NewsRecord(HealthLifestyle, Undefined, Str(h.text), Str(Prefixed(h.href)), Raw(h.src), PrefixOrNull(Origin, h.readMore))
  }

  /** A category item: here the link is checked (`link ? ... : null`) and the
      image defaults to `null`, while the group name is stored as read. */
  function LegacyCategoryRecord(name: Option<string>, it: Item): (r: NewsRecord)
    ensures r.section == Categories && r.readMoreLink == Undefined
    ensures r.category != Null && (r.category.Str? <==> name.Some?) && (r.category.Str? ==> name == Some(r.category.s))
    ensures r.title != Null && (r.title.Str? <==> it.title.Some?) && (r.title.Str? ==> it.title == Some(r.title.s))
    ensures r.link != Undefined && (r.link.Str? <==> Truthy(it.href))
    ensures r.link.Str? ==> Origin < r.link.s && r.link.s[|Origin|..] == it.href.value
    ensures r.image != Undefined && (r.image.Str? <==> Truthy(it.src))
    ensures r.image.Str? ==> it.src == Some(r.image.s)
    ensures Truthy(name) && Kept(it) ==> r == ItemRecord(Categories, Str(name.value), it)
  {
    NewsRecord(Categories, Raw(name), Raw(it.title), PrefixOrNull(Origin, it.href), OrNull(it.src), Undefined)
  }

  /** One `.each` loop: one record per matched element, in document order. */
  function LegacyList(sec: Section, items: seq<Item>): (rs: seq<NewsRecord>)
    ensures |rs| == |items|
    ensures forall i :: 0 <= i < |items| ==> rs[i] == LegacyItemRecord(sec, items[i])
    ensures forall r :: r in rs ==> r.section == sec
  {
    if items == [] then [] else [LegacyItemRecord(sec, items[0])] + LegacyList(sec, items[1..])
  }

  function LegacyHealthList(hs: seq<HealthItem>): (rs: seq<NewsRecord>)
    ensures |rs| == |hs|
    ensures forall i :: 0 <= i < |hs| ==> rs[i] == LegacyHealthRecord(hs[i])
    ensures forall r :: r in rs ==> r.section == HealthLifestyle
  {
    if hs == [] then [] else [LegacyHealthRecord(hs[0])] + LegacyHealthList(hs[1..])
  }

  /** The items of one group, whatever its name. */
  function LegacyGroup(name: Option<string>, items: seq<Item>): (rs: seq<NewsRecord>)
    ensures |rs| == |items|
    ensures forall i :: 0 <= i < |items| ==> rs[i] == LegacyCategoryRecord(name, items[i])
  {
    if items == [] then [] else [LegacyCategoryRecord(name, items[0])] + LegacyGroup(name, items[1..])
  }

  /** The nested categories loop, with no check on the group name. */
  function LegacyCategories(gs: seq<CategoryGroup>): (rs: seq<NewsRecord>)
    ensures |rs| == GroupItemCount(gs)
    ensures forall r :: r in rs ==> r.section == Categories
  {
    if gs == [] then [] else LegacyGroup(gs[0].name, gs[0].items) + LegacyCategories(gs[1..])
  }

  function LegacyBlocks(p: Page): (bs: seq<seq<NewsRecord>>)
    ensures |bs| == 6
  {
    [ [LegacyItemRecord(TopStory, TopFields(p.topStory))],
      LegacyList(LeftList, p.left),
      LegacyList(RightList, p.right),
      LegacyList(AnimalHusbandry, p.husbandry),
      LegacyHealthList(p.health),
      LegacyCategories(p.categories) ]
  }

  /** The `news` array of the `/news` handler: the top-story record first,
      then one record per matched element of the other five sections. */
  function LegacyData(p: Page): (rs: seq<NewsRecord>)
    ensures |rs| == 1 + |p.left| + |p.right| + |p.husbandry| + |p.health| + GroupItemCount(p.categories)
    ensures rs[0] == LegacyItemRecord(TopStory, TopFields(p.topStory))
  {
    Concat6(LegacyBlocks(p));
    Concat(LegacyBlocks(p))
  }

  lemma LegacyUnfolded(p: Page)
    ensures LegacyData(p) ==
      [LegacyItemRecord(TopStory, TopFields(p.topStory))] + LegacyList(LeftList, p.left)
      + LegacyList(RightList, p.right) + LegacyList(AnimalHusbandry, p.husbandry)
      + LegacyHealthList(p.health) + LegacyCategories(p.categories)
  {
    Concat6(LegacyBlocks(p));
  }

  /** The `/news` reply: always a success, with one record for the top story
      and one per matched element of the other five sections. */
  function LegacyNews(p: Page): (r: Response)
    ensures r.Success?
    ensures r.data == LegacyData(p)
    ensures r.count == |r.data|
    ensures r.count == 1 + |p.left| + |p.right| + |p.husbandry| + |p.health| + GroupItemCount(p.categories)
  {
    var news := LegacyData(p);
    LegacyUnfolded(p);
    Success(|news|, news)
  }

  // ---------------------------------------------------------------------
  // Properties

  lemma LegacyBlockSection(p: Page, k: int, r: NewsRecord)
    requires 0 <= k < 6 && r in LegacyBlocks(p)[k]
    ensures Rank(r.section) == k
  {
    if k == 0 {
      assert r == LegacyItemRecord(TopStory, TopFields(p.topStory));
    } else if k == 1 {
      assert r in LegacyList(LeftList, p.left);
    } else if k == 2 {
      assert r in LegacyList(RightList, p.right);
    } else if k == 3 {
      assert r in LegacyList(AnimalHusbandry, p.husbandry);
    } else if k == 4 {
      assert r in LegacyHealthList(p.health);
    } else {
      assert r in LegacyCategories(p.categories);
    }
  }

  lemma LegacyBlocksOrdered(p: Page)
    ensures BlocksInOrder(LegacyBlocks(p), 0)
  {
    forall k, r: NewsRecord | 0 <= k < |LegacyBlocks(p)| && r in LegacyBlocks(p)[k]
      ensures Rank(r.section) == k
    {
      LegacyBlockSection(p, k, r);
    }
  }

  /** The records of one section are exactly that section's loop output:
      no section's records depend on any other section of the page. */
  lemma LegacySectionIsolated(p: Page, s: Section)
    requires Rank(s) < 6
    ensures OfSection(LegacyData(p), s) == LegacyBlocks(p)[Rank(s)]
  {
    LegacyBlocksOrdered(p);
    OfSectionBlock(LegacyBlocks(p), s);
  }

  /** Records come out grouped by section, in the six-section order. */
  lemma LegacyOrdered(p: Page)
    ensures SectionOrdered(LegacyData(p))
  {
    LegacyBlocksOrdered(p);
    ConcatOrdered(LegacyBlocks(p), 0);
  }

  /** Exactly one top-story record, first in the array, whether or not a top
      story matched; and nothing from the trending or latest sections. */
  lemma LegacyTopStoryAlways(p: Page)
    ensures |LegacyData(p)| >= 1 && LegacyData(p)[0].section == TopStory
    ensures OfSection(LegacyData(p), TopStory) == [LegacyItemRecord(TopStory, TopFields(p.topStory))]
    ensures OfSection(LegacyData(p), Trending) == [] && OfSection(LegacyData(p), LatestNews) == []
  {
    var bs := LegacyBlocks(p);
    assert |bs| == 6 && bs[0] == [LegacyItemRecord(TopStory, TopFields(p.topStory))];
    assert LegacyData(p) == bs[0] + Concat(bs[1..]);
    LegacyBlocksOrdered(p);
    OfSectionBlock(bs, TopStory);
    OfSectionBeyond(bs, Trending);
    OfSectionBeyond(bs, LatestNews);
  }

  lemma LegacyListLinks(sec: Section, items: seq<Item>, r: NewsRecord)
    requires r in LegacyList(sec, items)
    ensures r.section == sec && r.link.Str? && Origin <= r.link.s
  {
    var i :| 0 <= i < |items| && LegacyList(sec, items)[i] == r;
  }

  lemma LegacyHealthLinks(hs: seq<HealthItem>, r: NewsRecord)
    requires r in LegacyHealthList(hs)
    ensures r.section == HealthLifestyle && r.link.Str? && Origin <= r.link.s
  {
    var i :| 0 <= i < |hs| && LegacyHealthList(hs)[i] == r;
  }

  /** The link facts of `LegacyLinks`, for a record of one block. */
  lemma LegacyBlockLinks(p: Page, k: int, r: NewsRecord)
    requires 0 <= k < 6 && r in LegacyBlocks(p)[k]
    ensures r.section != Categories ==> r.link.Str? && Origin <= r.link.s
    ensures r.section == Categories ==> r.link == Null || (r.link.Str? && Origin < r.link.s)
  {
    var bs := LegacyBlocks(p);
    if k == 0 {
      assert r == LegacyItemRecord(TopStory, TopFields(p.topStory));
    } else if k == 1 {
      LegacyListLinks(LeftList, p.left, r);
    } else if k == 2 {
      LegacyListLinks(RightList, p.right, r);
    } else if k == 3 {
      LegacyListLinks(AnimalHusbandry, p.husbandry, r);
    } else if k == 4 {
      LegacyHealthLinks(p.health, r);
    } else {
      LegacyCategoriesMembers(p.categories, r);
    }
  }

  /** Outside the categories section a link always starts with the origin;
      inside it a link is `null` or the origin followed by a non-empty path. */
  lemma LegacyLinks(p: Page)
    ensures forall r :: r in LegacyData(p) && r.section != Categories ==> r.link.Str? && Origin <= r.link.s
    ensures forall r :: r in LegacyData(p) && r.section == Categories ==> r.link == Null || (r.link.Str? && Origin < r.link.s)
  {
    forall r | r in LegacyData(p)
      ensures r.section != Categories ==> r.link.Str? && Origin <= r.link.s
      ensures r.section == Categories ==> r.link == Null || (r.link.Str? && Origin < r.link.s)
    {
      ConcatMembers(LegacyBlocks(p), r);
      var k :| 0 <= k < 6 && r in LegacyBlocks(p)[k];
      LegacyBlockLinks(p, k, r);
    }
  }

  /** A category record comes out for every item of every group, named or
      not, and carries the group's name as read. */
  lemma {:induction false} LegacyCategoriesMembers(gs: seq<CategoryGroup>, r: NewsRecord)
    ensures r in LegacyCategories(gs) <==>
      exists i, j :: 0 <= i < |gs| && 0 <= j < |gs[i].items| && r == LegacyCategoryRecord(gs[i].name, gs[i].items[j])
  {
    if gs != [] {
      LegacyCategoriesMembers(gs[1..], r);
      var head := LegacyGroup(gs[0].name, gs[0].items);
      if r in head {
        var j :| 0 <= j < |head| && head[j] == r;
        assert 0 <= 0 < |gs| && 0 <= j < |gs[0].items|;
      } else if r in LegacyCategories(gs[1..]) {
        var i, j :| 0 <= i < |gs[1..]| && 0 <= j < |gs[1..][i].items| && r == LegacyCategoryRecord(gs[1..][i].name, gs[1..][i].items[j]);
        assert gs[i + 1] == gs[1..][i];
      }
      if exists i, j :: 0 <= i < |gs| && 0 <= j < |gs[i].items| && r == LegacyCategoryRecord(gs[i].name, gs[i].items[j]) {
        var i, j :| 0 <= i < |gs| && 0 <= j < |gs[i].items| && r == LegacyCategoryRecord(gs[i].name, gs[i].items[j]);
        if i == 0 {
          assert head[j] == r;
        } else {
          assert gs[1..][i - 1] == gs[i];
        }
      }
    }
  }
}

=== FILE: records.dfy ===
/**
 News records, the response shape, and the facts about concatenating
 per-section blocks of records that every handler relies on.
 */
module Records {
  import opened Js

  /** The site every relative link is resolved against. */
  const Origin: string := "https://odia.krishijagran.com"

  datatype Section =
    | TopStory | LeftList | RightList | AnimalHusbandry
    | HealthLifestyle | Categories | Trending | LatestNews

  /** The position of a section in the order the handlers scrape them. */
  function Rank(s: Section): nat
  {
    match s
    case TopStory => 0
    case LeftList => 1
    case RightList => 2
    case AnimalHusbandry => 3
    case HealthLifestyle => 4
    case Categories => 5
    case Trending => 6
    case LatestNews => 7
  }

  /** The `section` string written into each record. */
  function Name(s: Section): string
  {
    match s
    case TopStory => "top_story"
    case LeftList => "left_list"
    case RightList => "right_list"
    case AnimalHusbandry => "animal_husbandry"
    case HealthLifestyle => "health_lifestyle"
    case Categories => "categories"
    case Trending => "trending"
    case LatestNews => "latest_news"
  }

  /** One element of the `data` array. A field the handler never sets is
      `Undefined`; for instance only category records carry `category`. */
  datatype NewsRecord = NewsRecord(
    section: Section,
    category: JsValue,
    title: JsValue,
    link: JsValue,
    image: JsValue,
    readMoreLink: JsValue)

  /** The JSON body of a handler's reply. `Success` is `status: 'success'`;
      `Error` is `status: 'error'` with an HTTP status code and, in the
      handlers that add one, a timestamp. */
  datatype Response =
    | Success(count: nat, data: seq<NewsRecord>)
    | Error(httpStatus: nat, message: string, error: string, timestamp: Option<string>)

  /** The blocks of records one after the other. */
  function Concat(bs: seq<seq<NewsRecord>>): (rs: seq<NewsRecord>)
  {
    if bs == [] then [] else bs[0] + Concat(bs[1..])
  }

  /** The records of one section, in their original order. */
  function OfSection(rs: seq<NewsRecord>, s: Section): (out: seq<NewsRecord>)
    ensures |out| <= |rs|
  {
    if rs == [] then []
    else (if rs[0].section == s then [rs[0]] else []) + OfSection(rs[1..], s)
  }

  /** Filtering keeps exactly the records of the section asked for. */
  lemma {:induction false} OfSectionMembers(rs: seq<NewsRecord>, s: Section, r: NewsRecord)
    ensures r in OfSection(rs, s) <==> r in rs && r.section == s
  {
    if rs != [] {
      OfSectionMembers(rs[1..], s, r);
      assert rs == [rs[0]] + rs[1..];
    }
  }

  /** Records appear grouped by section, sections in scraping order. */
  ghost predicate SectionOrdered(rs: seq<NewsRecord>)
  {
    forall i, j :: 0 <= i < j < |rs| ==> Rank(rs[i].section) <= Rank(rs[j].section)
  }

  /** Block `k` holds only records of the section ranked `first + k`. */
  ghost predicate BlocksInOrder(bs: seq<seq<NewsRecord>>, first: nat)
  {
    forall k, r :: 0 <= k < |bs| && r in bs[k] ==> Rank(r.section) == first + k
  }

  lemma {:induction false} ConcatMembers(bs: seq<seq<NewsRecord>>, r: NewsRecord)
    ensures r in Concat(bs) <==> exists k :: 0 <= k < |bs| && r in bs[k]
  {
    if bs != [] {
      ConcatMembers(bs[1..], r);
      if r in Concat(bs[1..]) {
        var k :| 0 <= k < |bs[1..]| && r in bs[1..][k];
        assert r in bs[k + 1];
      }
      if exists k :: 0 <= k < |bs| && r in bs[k] {
        var k :| 0 <= k < |bs| && r in bs[k];
        if k > 0 {
          assert r in bs[1..][k - 1];
        }
      }
    }
  }

  lemma {:induction false} ConcatAppend(a: seq<seq<NewsRecord>>, b: seq<seq<NewsRecord>>)
    ensures Concat(a + b) == Concat(a) + Concat(b)
  {
    if a != [] {
      assert (a + b)[1..] == a[1..] + b;
      ConcatAppend(a[1..], b);
    } else {
      assert a + b == b;
    }
  }

  /** Concatenating blocks that are each one section, in rank order, yields
      records grouped by section in rank order. */
  lemma {:induction false} ConcatOrdered(bs: seq<seq<NewsRecord>>, first: nat)
    requires BlocksInOrder(bs, first)
    ensures SectionOrdered(Concat(bs))
    ensures forall r :: r in Concat(bs) ==> first <= Rank(r.section)
  {
    if bs != [] {
      var rest := Concat(bs[1..]);
      assert BlocksInOrder(bs[1..], first + 1) by {
        forall k, r | 0 <= k < |bs[1..]| && r in bs[1..][k]
          ensures Rank(r.section) == first + 1 + k
        {
          assert r in bs[k + 1];
        }
      }
      ConcatOrdered(bs[1..], first + 1);
      var all := bs[0] + rest;
      forall i, j | 0 <= i < j < |all|
        ensures Rank(all[i].section) <= Rank(all[j].section)
      {
        if j < |bs[0]| {
          assert all[i] in bs[0] && all[j] in bs[0];
        } else if i < |bs[0]| {
          assert all[i] in bs[0];
          assert all[j] == rest[j - |bs[0]|];
        } else {
          assert all[i] == rest[i - |bs[0]|] && all[j] == rest[j - |bs[0]|];
        }
      }
      forall r | r in all ensures first <= Rank(r.section)
      {
        if r in bs[0] {
        } else {
          assert r in rest;
        }
      }
    }
  }

  lemma {:induction false} OfSectionAppend(a: seq<NewsRecord>, b: seq<NewsRecord>, s: Section)
    ensures OfSection(a + b, s) == OfSection(a, s) + OfSection(b, s)
  {
    if a != [] {
      var head := if a[0].section == s then [a[0]] else [];
      assert (a + b)[0] == a[0] && (a + b)[1..] == a[1..] + b;
      OfSectionAppend(a[1..], b, s);
      AppendAssoc(head, OfSection(a[1..], s), OfSection(b, s));
    } else {
      assert a + b == b;
    }
  }

  lemma {:induction false} OfSectionAll(rs: seq<NewsRecord>, s: Section)
    requires forall r :: r in rs ==> r.section == s
    ensures OfSection(rs, s) == rs
  {
    if rs != [] {
      assert rs[0] in rs;
      forall r | r in rs[1..] ensures r.section == s
      {
        assert r in rs;
      }
      OfSectionAll(rs[1..], s);
      assert [rs[0]] + rs[1..] == rs;
    }
  }

  lemma OfSectionNone(rs: seq<NewsRecord>, s: Section)
    requires forall r :: r in rs ==> r.section != s
    ensures OfSection(rs, s) == []
  {
    var out := OfSection(rs, s);
    if out != [] {
      OfSectionMembers(rs, s, out[0]);
    }
  }

  lemma BlocksInOrderTail(bs: seq<seq<NewsRecord>>, first: nat)
    requires bs != [] && BlocksInOrder(bs, first)
    ensures BlocksInOrder(bs[1..], first + 1)
    ensures forall r :: r in bs[0] ==> Rank(r.section) == first
  {
    forall k, r | 0 <= k < |bs[1..]| && r in bs[1..][k]
      ensures Rank(r.section) == first + 1 + k
    {
      assert r in bs[k + 1];
    }
  }

  lemma RankInjective(a: Section, b: Section)
    requires Rank(a) == Rank(b)
    ensures a == b
  {
  }

  /** Filtering one block whose records all share a rank. */
  lemma BlockOfSection(b: seq<NewsRecord>, rank: nat, s: Section)
    requires forall r :: r in b ==> Rank(r.section) == rank
    ensures OfSection(b, s) == if Rank(s) == rank then b else []
  {
    if Rank(s) == rank {
      forall r | r in b ensures r.section == s
      {
        RankInjective(r.section, s);
      }
      OfSectionAll(b, s);
    } else {
      OfSectionNone(b, s);
    }
  }

  /** Filtering the concatenation, one block at a time. */
  lemma OfSectionConcatStep(bs: seq<seq<NewsRecord>>, first: nat, s: Section)
    requires bs != [] && forall r :: r in bs[0] ==> Rank(r.section) == first
    ensures OfSection(Concat(bs), s) == (if Rank(s) == first then bs[0] else []) + OfSection(Concat(bs[1..]), s)
  {
    BlockOfSection(bs[0], first, s);
    assert Concat(bs) == bs[0] + Concat(bs[1..]);
    OfSectionAppend(bs[0], Concat(bs[1..]), s);
  }

  /** Filtering blocks that are in section order by one section yields
      exactly the block of that section: each section's records depend on
      nothing but that section's block. */
  lemma {:induction false} OfSectionConcat(bs: seq<seq<NewsRecord>>, first: nat, s: Section)
    requires BlocksInOrder(bs, first)
    ensures OfSection(Concat(bs), s) ==
      if first <= Rank(s) < first + |bs| then bs[Rank(s) - first] else []
  {
    if bs != [] {
      BlocksInOrderTail(bs, first);
      OfSectionConcatStep(bs, first, s);
      var tail := OfSection(Concat(bs[1..]), s);
      OfSectionConcat(bs[1..], first + 1, s);
      if Rank(s) == first {
        assert tail == [];
      } else if first < Rank(s) < first + |bs| {
        assert tail == bs[Rank(s) - first];
      } else {
        assert tail == [];
      }
    }
  }

  /** The two cases of `OfSectionConcat` for blocks that start at rank 0. */
  lemma OfSectionBlock(bs: seq<seq<NewsRecord>>, s: Section)
    requires BlocksInOrder(bs, 0) && Rank(s) < |bs|
    ensures OfSection(Concat(bs), s) == bs[Rank(s)]
  {
    OfSectionConcat(bs, 0, s);
  }

  lemma OfSectionBeyond(bs: seq<seq<NewsRecord>>, s: Section)
    requires BlocksInOrder(bs, 0) && |bs| <= Rank(s)
    ensures OfSection(Concat(bs), s) == []
  {
    OfSectionConcat(bs, 0, s);
  }

  lemma AppendAssoc(a: seq<NewsRecord>, b: seq<NewsRecord>, c: seq<NewsRecord>)
    ensures a + b + c == a + (b + c)
  {
  }

  /** Adding one more block at the end. */
  lemma ConcatSnoc(bs: seq<seq<NewsRecord>>, k: nat)
    requires k < |bs|
    ensures Concat(bs[..k + 1]) == Concat(bs[..k]) + bs[k]
  {
    assert bs[..k + 1] == bs[..k] + [bs[k]];
    ConcatAppend(bs[..k], [bs[k]]);
    assert [bs[k]][1..] == [];
  }

  /** Eight blocks concatenated, written out. */
  lemma Concat8(bs: seq<seq<NewsRecord>>)
    requires |bs| == 8
    ensures Concat(bs) == bs[0] + bs[1] + bs[2] + bs[3] + bs[4] + bs[5] + bs[6] + bs[7]
  {
    assert bs[..0] == [];
    ConcatSnoc(bs, 0);
    assert Concat(bs[..1]) == bs[0];
    ConcatSnoc(bs, 1);
    assert Concat(bs[..2]) == bs[0] + bs[1];
    ConcatSnoc(bs, 2);
    assert Concat(bs[..3]) == bs[0] + bs[1] + bs[2];
    ConcatSnoc(bs, 3);
    assert Concat(bs[..4]) == bs[0] + bs[1] + bs[2] + bs[3];
    ConcatSnoc(bs, 4);
    assert Concat(bs[..5]) == bs[0] + bs[1] + bs[2] + bs[3] + bs[4];
    ConcatSnoc(bs, 5);
    assert Concat(bs[..6]) == bs[0] + bs[1] + bs[2] + bs[3] + bs[4] + bs[5];
    ConcatSnoc(bs, 6);
    assert Concat(bs[..7]) == bs[0] + bs[1] + bs[2] + bs[3] + bs[4] + bs[5] + bs[6];
    ConcatSnoc(bs, 7);
    assert bs[..8] == bs;
  }

  /** Six blocks concatenated, written out. */
  lemma Concat6(bs: seq<seq<NewsRecord>>)
    requires |bs| == 6
    ensures Concat(bs) == bs[0] + bs[1] + bs[2] + bs[3] + bs[4] + bs[5]
  {
    assert bs[..0] == [];
    ConcatSnoc(bs, 0);
    assert Concat(bs[..1]) == bs[0];
    ConcatSnoc(bs, 1);
    assert Concat(bs[..2]) == bs[0] + bs[1];
    ConcatSnoc(bs, 2);
    assert Concat(bs[..3]) == bs[0] + bs[1] + bs[2];
    ConcatSnoc(bs, 3);
    assert Concat(bs[..4]) == bs[0] + bs[1] + bs[2] + bs[3];
    ConcatSnoc(bs, 4);
    assert Concat(bs[..5]) == bs[0] + bs[1] + bs[2] + bs[3] + bs[4];
    ConcatSnoc(bs, 5);
    assert bs[..6] == bs;
  }
}

=== FILE: scenarios.dfy ===
/**
 Concrete pages and what the handlers make of them, showing the edge cases
 of the code as written: truthiness rather than trimming, unconditional
 prefixing, `null` defaults, and the older handler's missing checks.
 */
module Scenarios {
  import opened Js
  import opened Document
  import opened Records
  import opened ApiExtract
  import opened Legacy

  /** A title of one space is truthy, so the element is kept untrimmed; a
      missing image becomes `null`. */
  lemma WhitespaceTitleKept()
    ensures ListRecords(LeftList, Undefined, [Item(Some(" "), Some("/a"), None)]) ==
      [NewsRecord(LeftList, Undefined, Str(" "), Str("https://odia.krishijagran.com/a"), Null, Undefined)]
  {
    assert [Item(Some(" "), Some("/a"), None)][1..] == [];
    assert Origin + "/a" == "https://odia.krishijagran.com/a";
  }

  /** An absolute href is prefixed all the same, and an empty `src` is
      written as `null`. */
  lemma AbsoluteHrefPrefixedAgain()
    ensures ListRecords(Trending, Undefined, [Item(Some("t"), Some("https://x.org/a"), Some(""))]) ==
      [NewsRecord(Trending, Undefined, Str("t"), Str("https://odia.krishijagran.comhttps://x.org/a"), Null, Undefined)]
  {
    assert [Item(Some("t"), Some("https://x.org/a"), Some(""))][1..] == [];
    assert Origin + "https://x.org/a" == "https://odia.krishijagran.comhttps://x.org/a";
  }

  /** A missing title or an empty href drops the element. */
  lemma IncompleteItemsDropped()
    ensures ListRecords(LatestNews, Undefined, [Item(None, Some("/a"), Some("/i.png")), Item(Some("t"), Some(""), None)]) == []
  {
    var items := [Item(None, Some("/a"), Some("/i.png")), Item(Some("t"), Some(""), None)];
    assert items[1..][1..] == [];
  }

  /** Health titles are anchor text: empty text drops the element, and a
      read-more link is prefixed when present. */
  lemma HealthTitlesFromText()
    ensures HealthRecords([HealthItem("", Some("/h"), Some("/more"), Some("/i.png"))]) == []
    ensures HealthRecords([HealthItem("Tea", Some("/h"), Some("/more"), None)]) ==
      [NewsRecord(HealthLifestyle, Undefined, Str("Tea"), Str("https://odia.krishijagran.com/h"), Null,
                  Str("https://odia.krishijagran.com/more"))]
  {
    assert [HealthItem("", Some("/h"), Some("/more"), Some("/i.png"))][1..] == [];
    assert [HealthItem("Tea", Some("/h"), Some("/more"), None)][1..] == [];
    assert Origin + "/h" == "https://odia.krishijagran.com/h";
    assert Origin + "/more" == "https://odia.krishijagran.com/more";
  }

  function Weather(): CategoryGroup
  {
    CategoryGroup(Some("Weather"), [Item(Some("Rain"), Some("/r"), None), Item(Some("Heat"), Some("/h"), None)])
  }

  function Market(): CategoryGroup
  {
    CategoryGroup(Some("Market"), [Item(Some("Rice"), Some("/rice"), None), Item(Some("Wheat"), None, None)])
  }

  lemma WeatherRecords()
    ensures GroupRecords(Weather()) ==
      [ NewsRecord(Categories, Str("Weather"), Str("Rain"), Str("https://odia.krishijagran.com/r"), Null, Undefined),
        NewsRecord(Categories, Str("Weather"), Str("Heat"), Str("https://odia.krishijagran.com/h"), Null, Undefined) ]
  {
    var items := Weather().items;
    assert items[1..] == [items[1]] && items[1..][1..] == [];
    assert Origin + "/r" == "https://odia.krishijagran.com/r";
    assert Origin + "/h" == "https://odia.krishijagran.com/h";
  }

  lemma MarketRecords()
    ensures GroupRecords(Market()) ==
      [ NewsRecord(Categories, Str("Market"), Str("Rice"), Str("https://odia.krishijagran.com/rice"), Null, Undefined) ]
  {
    var items := Market().items;
    assert items[1..] == [items[1]] && items[1..][1..] == [];
    assert Origin + "/rice" == "https://odia.krishijagran.com/rice";
  }

  /** "Weather" with two items and "Market" with two, one of them without a
      link, around a group with no name: two Weather records, one Market
      record, nothing from the unnamed group. */
  lemma WeatherAndMarket()
    ensures CategoryRecords([Weather(), CategoryGroup(None, [Item(Some("Lost"), Some("/l"), None)]), Market()]) ==
      [ NewsRecord(Categories, Str("Weather"), Str("Rain"), Str("https://odia.krishijagran.com/r"), Null, Undefined),
        NewsRecord(Categories, Str("Weather"), Str("Heat"), Str("https://odia.krishijagran.com/h"), Null, Undefined),
        NewsRecord(Categories, Str("Market"), Str("Rice"), Str("https://odia.krishijagran.com/rice"), Null, Undefined) ]
  {
    var unnamed := CategoryGroup(None, [Item(Some("Lost"), Some("/l"), None)]);
    var gs := [Weather(), unnamed, Market()];
    WeatherRecords();
    MarketRecords();
    assert GroupRecords(unnamed) == [];
    assert gs[1..] == [unnamed, Market()] && gs[1..][1..] == [Market()] && gs[1..][1..][1..] == [];
    assert CategoryRecords([Market()]) == GroupRecords(Market());
    assert CategoryRecords([unnamed, Market()]) == GroupRecords(Market());
  }

  /** The older handler: a missing href turns into the link
      "https://odia.krishijagran.comundefined", and a missing image stays
      undefined. */
  lemma LegacyMissingHref()
    ensures LegacyList(LeftList, [Item(Some("t"), None, None)]) ==
      [NewsRecord(LeftList, Undefined, Str("t"), Str("https://odia.krishijagran.comundefined"), Undefined, Undefined)]
  {
    assert [Item(Some("t"), None, None)][1..] == [];
    assert Origin + "undefined" == "https://odia.krishijagran.comundefined";
  }

  /** The older handler keeps items of an unnamed group, with no category,
      a `null` link for a missing href and a `null` image for an empty one. */
  lemma LegacyUnnamedGroupKept()
    ensures LegacyCategories([CategoryGroup(None, [Item(Some("t"), None, Some(""))])]) ==
      [NewsRecord(Categories, Undefined, Str("t"), Null, Null, Undefined)]
  {
    var gs := [CategoryGroup(None, [Item(Some("t"), None, Some(""))])];
    assert gs[1..] == [];
  }
}

=== FILE: variants.dfy ===
/**
 How the `/api/news` extraction and the older `/news` one relate. On a page
 where every element carries a non-empty title, link and image and every
 category group is named, the API's first six sections reproduce the older
 handler's array record for record; otherwise they part ways.
 */
module Variants {
  import opened Js
  import opened Document
  import opened Records
  import opened ApiExtract
  import opened Legacy

  /** Title, link and image all present and non-empty. */
  predicate CompleteItem(it: Item)
  {
    Truthy(it.title) && Truthy(it.href) && Truthy(it.src)
  }

  predicate CompleteHealth(h: HealthItem)
  {
    h.text != "" && Truthy(h.href) && Truthy(h.src)
  }

  predicate AllComplete(items: seq<Item>)
  {
    forall i :: 0 <= i < |items| ==> CompleteItem(items[i])
  }

  predicate CompleteGroups(gs: seq<CategoryGroup>)
  {
    forall i :: 0 <= i < |gs| ==> Truthy(gs[i].name) && AllComplete(gs[i].items)
  }

  predicate CompletePage(p: Page)
  {
    && p.topStory.Some? && CompleteItem(p.topStory.value)
    && AllComplete(p.left) && AllComplete(p.right) && AllComplete(p.husbandry)
    && (forall i :: 0 <= i < |p.health| ==> CompleteHealth(p.health[i]))
    && CompleteGroups(p.categories)
  }

  lemma {:induction false} ListAgrees(sec: Section, items: seq<Item>)
    requires PlainSection(sec) && AllComplete(items)
    ensures ListRecords(sec, Undefined, items) == LegacyList(sec, items)
  {
    if items != [] {
      assert CompleteItem(items[0]);
      assert AllComplete(items[1..]) by {
        forall i | 0 <= i < |items[1..]| ensures CompleteItem(items[1..][i])
        {
          assert items[1..][i] == items[i + 1];
        }
      }
      ListAgrees(sec, items[1..]);
    }
  }

  lemma {:induction false} GroupAgrees(name: string, items: seq<Item>)
    requires name != "" && AllComplete(items)
    ensures ListRecords(Categories, Str(name), items) == LegacyGroup(Some(name), items)
  {
    if items != [] {
      assert CompleteItem(items[0]);
      assert AllComplete(items[1..]) by {
        forall i | 0 <= i < |items[1..]| ensures CompleteItem(items[1..][i])
        {
          assert items[1..][i] == items[i + 1];
        }
      }
      GroupAgrees(name, items[1..]);
    }
  }

  lemma {:induction false} HealthAgrees(hs: seq<HealthItem>)
    requires forall i :: 0 <= i < |hs| ==> CompleteHealth(hs[i])
    ensures HealthRecords(hs) == LegacyHealthList(hs)
  {
    if hs != [] {
      assert CompleteHealth(hs[0]);
      forall i | 0 <= i < |hs[1..]| ensures CompleteHealth(hs[1..][i])
      {
        assert hs[1..][i] == hs[i + 1];
      }
      HealthAgrees(hs[1..]);
    }
  }

  lemma {:induction false} CategoriesAgree(gs: seq<CategoryGroup>)
    requires CompleteGroups(gs)
    ensures CategoryRecords(gs) == LegacyCategories(gs)
  {
    if gs != [] {
      assert Truthy(gs[0].name) && AllComplete(gs[0].items);
      GroupAgrees(gs[0].name.value, gs[0].items);
      assert CompleteGroups(gs[1..]) by {
        forall i | 0 <= i < |gs[1..]| ensures Truthy(gs[1..][i].name) && AllComplete(gs[1..][i].items)
        {
          assert gs[1..][i] == gs[i + 1];
        }
      }
      CategoriesAgree(gs[1..]);
    }
  }

  lemma TopAgrees(p: Page)
    requires CompletePage(p)
    ensures TopRecords(p.topStory) == [LegacyItemRecord(TopStory, TopFields(p.topStory))]
  {
  }

  /** On a complete page the API array is the older handler's array followed
      by the trending and latest-news records. */
  lemma LegacyIsPrefixOnCompletePages(p: Page)
    requires CompletePage(p)
    ensures Extract(p) ==
      LegacyData(p) + ListRecords(Trending, Undefined, p.trending) + ListRecords(LatestNews, Undefined, p.latest)
  {
    ExtractUnfolded(p);
    LegacyUnfolded(p);
    TopAgrees(p);
    ListAgrees(LeftList, p.left);
    ListAgrees(RightList, p.right);
    ListAgrees(AnimalHusbandry, p.husbandry);
    HealthAgrees(p.health);
    CategoriesAgree(p.categories);
  }

  /** Without a top story the two handlers disagree: the API emits no
      top-story record, the older handler emits one whose title and image
      are undefined and whose link ends in "undefined". */
  lemma MissingTopStory(p: Page)
    requires p.topStory.None?
    ensures OfSection(Extract(p), TopStory) == []
    ensures OfSection(LegacyData(p), TopStory) ==
      [NewsRecord(TopStory, Undefined, Undefined, Str(Origin + "undefined"), Undefined, Undefined)]
  {
    ExtractSectionIsolated(p, TopStory);
    LegacyTopStoryAlways(p);
  }
}
